=== FILE: README.md ===
# bili-server download-and-remux pipeline, in Dafny

This project models the media core of a small Flask proxy for a video
platform. Two routes do real work: `GET /api/audio` downloads one audio
stream and remuxes it into `{filename}.flac`; `GET /api/video` downloads an
audio and a video stream and remuxes both into `{filename}.mkv`. Both keep
their files in one flat cache directory and treat an existing output file as
a cache hit. Around them sit the helpers they use: the `validate_params`
decorator, `get_headers`, `download_file`, `convert_media`, and `fetch`'s
projection of an upstream JSON reply.

The model is functional. The cache directory is a `FileSystem`, a map from
path to bytes in which a file exists when its path is a key. A handler
threads a `State` of filesystem and effect trace through steps. The effects
are `Download(url, path, headers)`, `Convert(argv)` and `Send(path)`. The
outside world is a `World` value: the network's reply to each download
(`Fetched`) and how the ffmpeg run ended (`ToolRun`). The URL path component
(`urlparse(url).path`) is a function parameter `urlPath`, and the cache
directory is a parameter `cache`.

Modules, one per concern of the source:

- `Base` (base.dfy): `Option`, `byte`, paths and query arguments.
- `Paths` (paths.dfy): `os.path.join` and `os.path.basename`.
- `FileSys` (filesystem.dfy): the cache directory's state.
- `Params` (params.dfy): `validate_params` and `get_headers`.
- `Http` (http.dfy): the `raise_for_status` rule and `fetch`.
- `Downloader` (downloader.dfy): `download_file`.
- `Remuxer` (remuxer.dfy): `convert_media`.
- `Routes` (routes.dfy): the `audio` and `video` handlers with their decorators.
- `RouteProperties` (route_properties.dfy): lemmas about the two routes.

## Model

| member | source | states |
|---|---|---|
| Paths.Basename | app/routes.py:91 | The local file name is the part of the URL path after its last `/`: a suffix with no `/` that cannot be extended left without taking in a `/` |
| Paths.BasenameOfJoin | app/routes.py:119-121 | Joining a one-segment name onto the cache directory and taking the basename gives the name back |
| Paths.BasenameOfSegment | app/routes.py:91 | A name without `/` is its own basename |
| Paths.Join | app/routes.py:91-93 | `os.path.join(cache, name)` for a relative name: the directory, one `/`, then the name unchanged (no sanitising) |
| Params.FirstMissingFrom | app/utils.py:17-20 | The scan returns the first index, in declared order, whose parameter is absent or empty, and every earlier parameter is present |
| Params.ValidateParams | app/utils.py:17-21 | The parameter check passes exactly when every required parameter is present and non-empty; otherwise the error is `Missing parameter: p` for the first such `p` in declared order |
| Params.GetHeaders | app/utils.py:42-53 | The header map has exactly the keys `cookie`, `referer`, `user-agent`; the referer is always `https://www.bilibili.com/`; cookie and user-agent come from the request |
| Params.GetHeadersDependsOnCookieAndAgent | app/utils.py:43-48 | Two requests with the same cookie and user-agent get the same headers, whatever else they carry |
| Params.ValidatedCookieIsSent | app/utils.py:43-51 | After validation that includes `cookie`, the header carries that cookie, and it is non-empty |
| Http.Fetch | app/utils.py:57-72 | The result is the `data` field of a successful JSON-object reply, and `{}` when the field is absent, on a connection error, an error status, an undecodable body or a non-object body |
| Http.IsErrorStatus | app/utils.py:61 | `raise_for_status` raises exactly for statuses 400 to 599; every other final status passes (the same rule guards app/utils.py:83) |
| Http.FetchFailureLooksLikeNoData | app/utils.py:64-72 | A failed request gives the caller the same result as a successful reply with no `data` field |
| Http.FetchSeesOnlyData | app/utils.py:63 | Among successful object replies, only the `data` field decides the result |
| Downloader.WriteLoopIsConcat | app/utils.py:85-90 | The write loop that skips empty chunks writes exactly the in-order concatenation of all chunks |
| Downloader.WriteLoop | app/utils.py:86-90 | The write loop only appends to what the file already holds: the bytes written before are a prefix of the result |
| Downloader.Split | app/utils.py:86-88 | One way the stream read with `chunk_size=1024 * 64` may deliver a payload: consecutive non-empty chunks of at most that size |
| Downloader.SplitRoundTrip | app/utils.py:86-90 | Concatenating the chunks of a split payload gives the payload back |
| Downloader.DownloadFile | app/utils.py:76-98 | With no reply or an error status (400 to 599) the filesystem is unchanged, so the file is never created or truncated; otherwise the file holds the concatenated chunks; no other path changes and no file disappears |
| Downloader.DownloadRoundTrip | app/utils.py:82-90 | A payload served in 64 KiB chunks with a success status lands in the local file byte for byte |
| FileSys.FileSystem.Write | app/utils.py:85 | Opening a path with mode `"wb"` and writing leaves exactly the new contents there, creates the path if needed, and touches no other file |
| Remuxer.InputArgs | app/utils.py:107-108 | One `-i path` pair per input, in the order of the inputs |
| Remuxer.FfmpegArgv | app/utils.py:104-111 | The argv is `ffmpeg -y -loglevel error`, then `-i p` per input in order, then `-c copy output`; its length is 7 + 2n |
| Remuxer.ArgvIgnoresKinds | app/utils.py:107-108 | Inputs with the same paths give the same argv whatever their stream kinds |
| Remuxer.ArgvOfOne | app/routes.py:103 | The audio route's command is `ffmpeg -y -loglevel error -i local -c copy output` |
| Remuxer.ArgvOfTwo | app/routes.py:135 | The video route's command names the audio input before the video input |
| Remuxer.ConvertMedia | app/utils.py:101-120 | Only the output path can change; it holds what ffmpeg wrote when it wrote something, and otherwise nothing changes |
| Remuxer.ReturnCodeIsOnlyLogged | app/utils.py:114-118 | Two runs that differ only in exit code have the same effect |
| Routes.LocalPath | app/routes.py:91 | The local path is the cache directory joined with the URL path's last segment, and its own basename is that segment |
| Routes.AudioOutput | app/routes.py:93 | For a one-segment `filename`, the audio output is the file `filename.flac` directly in the cache directory: its basename is `filename.flac` and it is the cache directory joined with that basename |
| Routes.VideoOutput | app/routes.py:123 | For a one-segment `filename`, the video output is the file `filename.mkv` directly in the cache directory: its basename is `filename.mkv` and it is the cache directory joined with that basename |
| Routes.AudioMiss | app/routes.py:99-103 | The audio miss sequence records one download of the audio URL to its local path, then one ffmpeg run on that single input, and removes no file |
| Routes.VideoMiss | app/routes.py:129-135 | The video miss sequence records the audio download, then the video download, both with the same headers, then one ffmpeg run on (audio, video), and removes no file |
| Routes.AudioHandler | app/routes.py:86-106 | Every run of `audio()` whose downloads and ffmpeg run return ends by sending the `.flac` output and removes no file |
| Routes.VideoHandler | app/routes.py:113-138 | Every run of `video()` whose downloads and ffmpeg run return ends by sending the `.mkv` output and removes no file |
| Routes.AudioRoute | app/routes.py:82-106 | A failed parameter check answers with the error and has no effect; a passed one is exactly `audio()` on the validated values |
| Routes.VideoRoute | app/routes.py:109-138 | The same for `video()` with `aurl`, `vurl`, `filename`, `cookie` |
| RouteProperties.AudioValidation | app/routes.py:82-85 | The audio route's parameter check passes exactly when `aurl`, `filename` and `cookie` are all present and non-empty |
| RouteProperties.VideoValidation | app/routes.py:109-112 | The video route's parameter check passes exactly when `aurl`, `vurl`, `filename` and `cookie` are all present and non-empty |
| RouteProperties.AudioMissTrace | app/routes.py:100-106 | The audio miss sequence followed by the send is exactly: download, `ffmpeg -y -loglevel error -i local -c copy output`, send |
| RouteProperties.VideoMissTrace | app/routes.py:130-138 | The video miss sequence followed by the send is exactly: audio download, video download, ffmpeg with the audio input first, send |
| RouteProperties.AudioMissProduces | app/routes.py:103 | When ffmpeg writes the output, the audio miss sequence leaves the output on disk |
| RouteProperties.VideoMissProduces | app/routes.py:135 | When ffmpeg writes the output, the video miss sequence leaves the output on disk |
| RouteProperties.VideoMissKeepsAudio | app/routes.py:130-135 | For any successful audio reply, the audio file holds the concatenation of its chunks after the video download and the ffmpeg run, when the three paths differ |
| RouteProperties.VideoMissKeepsVideo | app/routes.py:132-135 | For any successful video reply, the video file holds the concatenation of its chunks after the ffmpeg run, when it is not the output path |
| RouteProperties.VideoMissUsesHeaders | app/routes.py:130-132 | Both downloads of the video miss sequence use the one header map they are given |
| RouteProperties.AudioMissOutcome | app/routes.py:96-106 | On an audio cache miss the route's outcome is the miss sequence on the validated values followed by sending the output |
| RouteProperties.VideoMissOutcome | app/routes.py:126-138 | On a video cache miss the route's outcome is the miss sequence on the validated values followed by sending the output |
| RouteProperties.OutputNaming | app/routes.py:93 | For every `filename`, the audio output and the video output (line 123) are different path strings |
| RouteProperties.AudioCacheHit | app/routes.py:96-97 | If the `.flac` output exists, the route sends it, records only `Send`, and leaves the filesystem as it was |
| RouteProperties.AudioCacheMiss | app/routes.py:100-106 | On a miss the trace is exactly one download of the audio URL to its local path, one ffmpeg run with that single input, then `Send(output)` |
| RouteProperties.VideoCacheHit | app/routes.py:126-127 | If the `.mkv` output exists, the route sends it, records only `Send`, and leaves the filesystem as it was |
| RouteProperties.VideoCacheMiss | app/routes.py:130-138 | On a miss the trace is audio download, then video download, then ffmpeg with inputs (audio, video), then `Send(output)` |
| RouteProperties.AudioTraceIgnoresWorld | app/routes.py:100-106 | The audio route's effects are the same whatever the download and ffmpeg outcomes, so a failure never aborts the sequence |
| RouteProperties.VideoTraceIgnoresWorld | app/routes.py:130-138 | The same for the video route: a failed download is still followed by the ffmpeg run and the send |
| RouteProperties.VideoDownloadsShareHeaders | app/routes.py:130-132 | Every download of a video request uses the one `get_headers` map, which carries the validated cookie |
| RouteProperties.RoutesOnlyGrowTheCache | app/routes.py:96-138 | Neither route ever removes a file from the cache directory |
| RouteProperties.AudioLeavesOutput | app/routes.py:103-106 | When ffmpeg writes the output, or it was cached, the output exists afterwards and is sent as an attachment |
| RouteProperties.VideoLeavesOutput | app/routes.py:135-138 | The same for the video route |
| RouteProperties.AudioRepeat | app/routes.py:93-97 | Two identical audio requests both end by sending the same output; if the first left it on disk, the second has no download or convert and changes nothing |
| RouteProperties.VideoRepeat | app/routes.py:123-127 | The same for two identical video requests |
| RouteProperties.VideoMissingVurl | app/routes.py:110-112 | A video request with `aurl` but without `vurl` is answered with `Missing parameter: vurl` before any download |
| RouteProperties.VideoKeepsAudioStream | app/routes.py:130-135 | On a miss with any successful audio reply, the audio file holds the concatenation of the reply's chunks afterwards, whatever the video download and ffmpeg did, when the audio path differs from the video path and the output path |
| RouteProperties.VideoKeepsVideoStream | app/routes.py:132-135 | On a miss with any successful video reply, the video file holds the concatenation of the reply's chunks afterwards, when the video path is not the output path |
| RouteProperties.VideoSharedSegment | app/routes.py:119-135 | On a miss, when the audio and video URLs end in the same segment, that shared path is not the output path and the video reply succeeds, the video download overwrites the audio file, which ends up holding the video reply's bytes, and ffmpeg gets that one path as both inputs |

## Behaviour the model makes explicit

The model follows the code. In these points the code does less than a
caller might assume:

- A failed download that returns does not stop the route. `download_file`
  swallows every error, so ffmpeg still runs, possibly on missing inputs, and the route
  still sends the output (`AudioTraceIgnoresWorld`, `VideoTraceIgnoresWorld`).
- ffmpeg's exit code is only logged. Whatever file sits at the output path
  afterwards is served, and a missing one makes `send_file` fail, which the
  model gives as `ServerError`.
- Any existing output counts as a cache hit, including a truncated file left
  by an earlier failed run (`AudioCacheHit`, `VideoCacheHit`).
- `filename` and the URL's last segment are not sanitised. A `filename` with
  `/` in it names a file outside the flat cache layout, and the output
  naming contracts hold only for one-segment names. If a URL's last segment
  equals the output name,
  the download itself writes the output path.
- The audio and video URLs are not told apart on disk. When their paths end
  in the same segment, both downloads write one local file, the video stream
  replaces the audio stream, and ffmpeg is given that file twice
  (`VideoSharedSegment`).

## Left out

- HTTP traffic, JSON decoding and `send_file`'s streaming: each download's
  reply, `fetch`'s reply and the served bytes are values in the model.
- The random `time.sleep` before each download (app/utils.py:78-80): timing only.
- Running ffmpeg (`subprocess.run`): the `ToolRun` value says whether it
  started, its exit code, and what it wrote at the output path.
- All logging, including `fetch_log`, the logger calls in the `except`
  branches and `setup_logging` in app/__init__.py: side effects only.
- Flask bootstrap, CORS, blueprint registration, run.py and the constants
  in app/config.py. The cache directory is a parameter, and its creation
  at import time is not modelled.
- The four relay routes (`generate`, `poll`, `view`, `playurl`): only the
  `fetch` projection they share is modelled.
- Full `urlparse` semantics: the URL's path component is the function
  parameter `urlPath`, which is total.
- Routes.AudioHandler: `urlparse` raises `ValueError` for a URL whose network
  location has an unbalanced `[` or `]` (for example `https://[x/a.m4s`).
  At app/routes.py:91 this happens before the cache check, so the request
  ends in a server error without `send_file`, even on a cache hit. The model
  has no such failure, so for these URLs its "ends by sending the output"
  and the cache-hit and cache-miss lemmas claim more than the code does.
- Routes.VideoHandler: the same `ValueError`, at app/routes.py:119 and 121,
  for either URL.
- Routes.AudioHandler: every download and the ffmpeg run are assumed to
  return. `requests.get` at app/utils.py:82, the `iter_content` loop at
  app/utils.py:86 and `subprocess.run` at app/utils.py:114 set no timeout, so
  a peer that accepts the connection and then stalls, or an ffmpeg that
  never exits, blocks the request forever with no `Send`. Each `Fetched` and
  `ToolRun` value stands for an outcome that did arrive.
- Routes.VideoHandler: the same unbounded blocking, for either download and
  for the ffmpeg run.
- `os.path.join` when the name is absolute or the directory ends in `/`:
  `Paths.Join` is `dir + "/" + name`, which is what the cache directory
  (an absolute path ending in `cache`) produces for relative names.
- Path resolution: paths are compared as text, and a file is the same as
  its path string. `./`, `../`, repeated `/` and the segments `.` and `..`
  are not resolved, so two spellings of one file on disk are two files in
  the model. A `filename` of `./clip` after `clip`, for example, is a cache
  hit in the code and a miss in the model. A URL segment `.` or `..` names a
  directory, and `open` fails there with a swallowed `IsADirectoryError`,
  while the model records a file.
- RouteProperties.VideoKeepsAudioStream: its requirement that the audio
  path differs from the output path is inequality of text. An audio URL
  ending in `clip.mkv` with `filename=./clip` meets it, yet on disk both
  paths are one file, which ffmpeg overwrites. The same holds for
  `VideoMissKeepsAudio`, `VideoKeepsVideoStream`, `VideoMissKeepsVideo` and
  `VideoSharedSegment`.
- Downloader.DownloadFile: does not model an `OSError` raised by `open` or
  `write` (a missing cache directory, a full disk). One case follows from the
  request alone. A URL path that is empty or ends in `/` has an empty
  basename, so the local path is `cache + "/"`, the cache directory itself.
  There `open` raises `IsADirectoryError`, which is swallowed, while the
  model records a file at that path. A stream that breaks
  part-way is modelled by a reply holding only the chunks that arrived
  before the break.
- Query parameters given more than once: `Args` holds a single (first) value
  per name.
- JSON numbers are integers, so floating point is not modelled.
- Concurrent requests for the same output: the code takes no lock and
  concurrency is not modelled.

=== FILE: base.dfy ===
/** Shared vocabulary of the model: optional values, bytes, paths and query arguments. */
module Base {

  /** A value that may be absent, as Python's `None` or a missing dictionary key. */
  datatype Option<+T> = None | Some(value: T)

  /** One octet of a file or of a response body. */
  newtype byte = x: int | 0 <= x < 256

  type Bytes = seq<byte>

  /** A filesystem path, as the text Python hands to `open` and `os.path.exists`. */
  type Path = string

  /** The query string of one request: each parameter name with its (first) value. */
  type Args = map<string, string>

  /** `args.get(key)`: the value when the key is present, `None` otherwise. */
  function Lookup(args: Args, key: string): Option<string>
  {
    if key in args then Some(args[key]) else None
  }
}

=== FILE: downloader.dfy ===
/**
 * `download_file`: a streamed GET whose status is checked before the target
 * file is opened, then a loop writing every non-empty chunk in order.
 */
module Downloader {
  import opened Base
  import opened FileSys
  import Http

  /** `iter_content(chunk_size=1024 * 64)`: the largest chunk the stream hands out. */
  const ChunkSize: nat := 1024 * 64

  /**
   * What the network gives one download: nothing at all (connection
   * failure), or a status and the chunks delivered. A stream that breaks
   * part-way is the reply carrying only the chunks that arrived before the
   * break; the error it raises is swallowed like every other.
   */
  datatype Fetched = Unreachable | Served(status: int, chunks: seq<Bytes>)

  /** Reference meaning of a chunk sequence: all of its bytes, in order. */
  function Concat(chunks: seq<Bytes>): Bytes
  {
    if |chunks| == 0 then [] else chunks[0] + Concat(chunks[1..])
  }

  /**
   * The write loop: starting from what is already `written`, append each
   * chunk in turn, skipping the empty ones (`if chunk: f.write(chunk)`).
   */
  function WriteLoop(written: Bytes, chunks: seq<Bytes>): (r: Bytes)
    ensures |written| <= |r| && r[..|written|] == written
    decreases |chunks|
  {
    if |chunks| == 0 then written
    else WriteLoop(if |chunks[0]| > 0 then written + chunks[0] else written, chunks[1..])
  }

  /** Skipping empty chunks loses nothing: the loop writes exactly the concatenation. */
  lemma {:induction false} WriteLoopIsConcat(written: Bytes, chunks: seq<Bytes>)
    ensures WriteLoop(written, chunks) == written + Concat(chunks)
    decreases |chunks|
  {
    if |chunks| > 0 {
      var next := if |chunks[0]| > 0 then written + chunks[0] else written;
      WriteLoopIsConcat(next, chunks[1..]);
      assert next == written + chunks[0];
      assert written + chunks[0] + Concat(chunks[1..]) == written + (chunks[0] + Concat(chunks[1..]));
    }
  }

  /**
   * A payload cut into consecutive pieces of at most `size` bytes, the way a
   * stream read with `iter_content(chunk_size=size)` may deliver it.
   */
  function Split(payload: Bytes, size: nat): (chunks: seq<Bytes>)
    requires size > 0
    ensures forall i | 0 <= i < |chunks| :: 0 < |chunks[i]| <= size
    decreases |payload|
  {
    if |payload| == 0 then []
    else if |payload| <= size then [payload]
    else [payload[..size]] + Split(payload[size..], size)
  }

  /** Splitting and concatenating again gives back the payload. */
  lemma {:induction false} SplitRoundTrip(payload: Bytes, size: nat)
    requires size > 0
    ensures Concat(Split(payload, size)) == payload
    decreases |payload|
  {
    if |payload| > size {
      var rest := Split(payload[size..], size);
      SplitRoundTrip(payload[size..], size);
      assert Split(payload, size) == [payload[..size]] + rest;
      assert ([payload[..size]] + rest)[1..] == rest;
      assert payload[..size] + payload[size..] == payload;
    } else if |payload| > 0 {
      assert Concat([payload]) == payload + Concat([]);
    }
  }

  /**
   * `download_file(url, file, headers)` for the reply the network gave to
   * that URL and those headers. Nothing happens unless a reply arrived and
   * passed `raise_for_status`; only then is `file` opened (created or
   * truncated) and filled with the concatenated chunks. No other path is
   * touched, and every error is swallowed.
   */
  function DownloadFile(file: Path, reply: Fetched, fs: FileSystem): (fs': FileSystem)
    ensures (reply.Unreachable? || Http.IsErrorStatus(reply.status)) ==> fs' == fs
    ensures reply.Served? && !Http.IsErrorStatus(reply.status) ==>
      fs'.Exists(file) && fs'.files[file] == Concat(reply.chunks)
    ensures fs.SameExcept(fs', file) && fs.GrowsTo(fs')
  {
    match reply
    case Unreachable => fs
    case Served(status, chunks) =>
      if Http.IsErrorStatus(status) then fs
      else
        WriteLoopIsConcat([], chunks);
        fs.Write(file, WriteLoop([], chunks))
  }

  /**
   * Byte round trip: a payload served in chunks of at most 64 KiB ends up in
   * the local file exactly, whatever the file held before.
   */
  lemma DownloadRoundTrip(file: Path, status: int, payload: Bytes, fs: FileSystem)
    requires !Http.IsErrorStatus(status)
    ensures DownloadFile(file, Served(status, Split(payload, ChunkSize)), fs).files[file] == payload
  {
    SplitRoundTrip(payload, ChunkSize);
  }
}

=== FILE: filesystem.dfy ===
/** The cache directory's state: which paths exist, and what each holds. */
module FileSys {
  import opened Base

  datatype FileSystem = FileSystem(files: map<Path, Bytes>) {

    /** `os.path.exists(p)`. */
    predicate Exists(p: Path)
    {
      p in files
    }

    /** Create or truncate `p` and leave `contents` in it; every other file is untouched. */
    function Write(p: Path, contents: Bytes): (fs': FileSystem)
      ensures fs'.Exists(p) && fs'.files[p] == contents
      ensures fs'.files.Keys == files.Keys + {p}
      ensures forall q | q in files && q != p :: fs'.files[q] == files[q]
    {
      FileSystem(files[p := contents])
    }

    /** No file that exists here is missing from `fs'`: the cache only grows. */
    predicate GrowsTo(fs': FileSystem)
    {
      files.Keys <= fs'.files.Keys
    }

    /** `fs'` agrees with this state everywhere except possibly at `p`. */
    predicate SameExcept(fs': FileSystem, p: Path)
    {
      && files.Keys - {p} == fs'.files.Keys - {p}
      && forall q | q in files && q != p :: q in fs'.files && fs'.files[q] == files[q]
    }
  }
}

=== FILE: http.dfy ===
/**
 * What the handlers learn from the network, and `fetch`'s projection of an
 * upstream JSON reply onto its `data` field.
 */
module Http {

  /**
   * `raise_for_status()` raises exactly for client errors (4xx) and server
   * errors (5xx); every other final status passes.
   */
  predicate IsErrorStatus(status: int)
  {
    400 <= status < 600
  }

  /** A decoded JSON value. Numbers are integers here; floating point is not modelled. */
  datatype Json =
    | JNull
    | JBool(b: bool)
    | JNum(n: int)
    | JStr(s: string)
    | JArr(items: seq<Json>)
    | JObj(fields: map<string, Json>)

  /** The body of a reply: valid JSON, or text that `response.json()` cannot decode. */
  datatype Body = Undecodable | Decoded(json: Json)

  /** The outcome of `requests.get`: a connection-level failure, or a reply. */
  datatype Reply = Unreachable | Replied(status: int, body: Body)

  /** `{}`, what `fetch` returns whenever it has nothing better. */
  const EmptyObject: Json := JObj(map[])

  /** A reply that passed `raise_for_status` and decoded to an object holding a `data` field. */
  predicate CarriesData(reply: Reply)
  {
    && reply.Replied?
    && !IsErrorStatus(reply.status)
    && reply.body.Decoded?
    && reply.body.json.JObj?
    && "data" in reply.body.json.fields
  }

  /**
   * `fetch(url, params, headers)` given the upstream's reply: the `data`
   * field of a successful JSON object reply, and `{}` in every other case: a
   * missing field, a connection failure, an error status, a body that is not
   * JSON, or JSON that is not an object (whose `.get` raises).
   */
  function Fetch(reply: Reply): (r: Json)
    ensures CarriesData(reply) ==> r == reply.body.json.fields["data"]
    ensures !CarriesData(reply) ==> r == EmptyObject
  {
    match reply
    case Unreachable => EmptyObject
    case Replied(status, body) =>
      if IsErrorStatus(status) then EmptyObject
      else
        match body
        case Undecodable => EmptyObject
        case Decoded(json) =>
          match json
          case JObj(fields) => if "data" in fields then fields["data"] else EmptyObject
          case _ => EmptyObject
  }

  /**
   * A failed request is indistinguishable, to `fetch`'s caller, from a
   * successful reply that carries no `data` field: errors are swallowed.
   */
  lemma FetchFailureLooksLikeNoData(failed: Reply, status: int, fields: map<string, Json>)
    requires failed.Unreachable? || (failed.Replied? && IsErrorStatus(failed.status))
    requires !IsErrorStatus(status) && "data" !in fields
    ensures Fetch(failed) == Fetch(Replied(status, Decoded(JObj(fields))))
  {
  }

  /** Fields other than `data`, and the success status's exact value, do not affect the result. */
  lemma FetchSeesOnlyData(s1: int, s2: int, f1: map<string, Json>, f2: map<string, Json>)
    requires !IsErrorStatus(s1) && !IsErrorStatus(s2)
    requires ("data" in f1 <==> "data" in f2)
    requires "data" in f1 ==> f1["data"] == f2["data"]
    ensures Fetch(Replied(s1, Decoded(JObj(f1)))) == Fetch(Replied(s2, Decoded(JObj(f2))))
  {
  }
}

=== FILE: params.dfy ===
/**
 * The request-side helpers shared by the route handlers: the `validate_params`
 * decorator's parameter check and `get_headers`.
 */
module Params {
  import opened Base

  /** What a handler can read from the incoming request. */
  datatype Request = Request(args: Args, userAgent: Option<string>)

  /** Outbound request headers; a value is `None` when the request did not supply it. */
  type Headers = map<string, Option<string>>

  /** The fixed referer sent upstream with every outbound request. */
  const Referer: string := "https://www.bilibili.com/"

  /** Python truthiness of `args.get(p)`: present and not the empty string. */
  predicate Present(args: Args, p: string)
  {
    p in args && args[p] != ""
  }

  /** The error text the decorator returns for a missing parameter `p`. */
  function MissingMessage(p: string): string
  {
    "Missing parameter: " + p
  }

  /**
   * The `for param in params` scan from position `from`: the index of the
   * first parameter that is not present, or `|required|` when all are.
   */
  function FirstMissingFrom(required: seq<string>, args: Args, from: nat): (i: nat)
    requires from <= |required|
    ensures from <= i <= |required|
    ensures forall j | from <= j < i :: Present(args, required[j])
    ensures i < |required| ==> !Present(args, required[i])
    decreases |required| - from
  {
    if from == |required| then from
    else if !Present(args, required[from]) then from
    else FirstMissingFrom(required, args, from + 1)
  }

  /**
   * The parameter check `validate_params(*required)` performs before running the
   * wrapped handler: `Some(error)` naming the first parameter, in declared
   * order, that is absent or empty; `None` when the handler may run.
   */
  function ValidateParams(required: seq<string>, args: Args): (r: Option<string>)
    ensures r.None? <==> forall j | 0 <= j < |required| :: Present(args, required[j])
    ensures r.Some? ==>
      exists i | 0 <= i < |required| ::
        && !Present(args, required[i])
        && (forall j | 0 <= j < i :: Present(args, required[j]))
        && r.value == MissingMessage(required[i])
  {
    var i := FirstMissingFrom(required, args, 0);
    if i < |required| then Some(MissingMessage(required[i])) else None
  }

  /**
   * `get_headers()`: the cookie from the query string, the fixed referer and
   * the caller's user-agent, under exactly these three keys.
   */
  function GetHeaders(req: Request): (h: Headers)
    ensures h.Keys == {"cookie", "referer", "user-agent"}
    ensures h["referer"] == Some(Referer)
    ensures h["cookie"] == Lookup(req.args, "cookie")
    ensures h["user-agent"] == req.userAgent
  {
    map["cookie" := Lookup(req.args, "cookie"),
        "referer" := Some(Referer),
        "user-agent" := req.userAgent]
  }

  /** The headers depend on nothing in the request but the cookie and the user-agent. */
  lemma GetHeadersDependsOnCookieAndAgent(a: Request, b: Request)
    requires Lookup(a.args, "cookie") == Lookup(b.args, "cookie")
    requires a.userAgent == b.userAgent
    ensures GetHeaders(a) == GetHeaders(b)
  {
  }

  /** Once `cookie` has passed validation, the header carries exactly that cookie. */
  lemma ValidatedCookieIsSent(req: Request, required: seq<string>)
    requires "cookie" in required
    requires ValidateParams(required, req.args).None?
    ensures GetHeaders(req)["cookie"] == Some(req.args["cookie"])
    ensures req.args["cookie"] != ""
  {
    var k :| 0 <= k < |required| && required[k] == "cookie";
    assert Present(req.args, required[k]);
  }
}

=== FILE: paths.dfy ===
/** The two pieces of `os.path` the handlers use to build cache paths. */
module Paths {
  import opened Base

  /**
   * `os.path.join(dir, name)` for a directory that does not end in `/` and a
   * relative name: the two are glued with a single separator. The name is not
   * sanitised, exactly as in the handlers.
   */
  function Join(dir: Path, name: string): Path
  {
    dir + "/" + name
  }

  /**
   * `os.path.basename(p)`: everything after the last `/`, or all of `p` when
   * it holds no `/`. The contract characterises the result completely: it is
   * a suffix of `p`, it holds no separator, and it cannot be extended to the
   * left without taking in a separator.
   */
  function Basename(p: string): (r: string)
    ensures '/' !in r
    ensures |r| <= |p| && r == p[|p| - |r|..]
    ensures |r| < |p| ==> p[|p| - |r| - 1] == '/'
    decreases |p|
  {
    if |p| == 0 || p[|p| - 1] == '/' then ""
    else
      var q := p[..|p| - 1];
      var r := Basename(q) + [p[|p| - 1]];
      assert p == q + [p[|p| - 1]];
      r
  }

  /** A single segment is its own basename. */
  lemma BasenameOfSegment(name: string)
    requires '/' !in name
    ensures Basename(name) == name
  {
  }

  /** The basename of a joined path is the name that was joined, when that name is one segment. */
  lemma {:induction false} BasenameOfJoin(dir: Path, name: string)
    requires '/' !in name
    ensures Basename(Join(dir, name)) == name
    decreases |name|
  {
    var p := Join(dir, name);
    if |name| > 0 {
      var init := name[..|name| - 1];
      assert '/' !in init by {
        forall k | 0 <= k < |init| ensures init[k] != '/' {
          assert init[k] == name[k];
        }
      }
      BasenameOfJoin(dir, init);
      assert p[..|p| - 1] == Join(dir, init);
      assert name == init + [name[|name| - 1]];
    }
  }
}

=== FILE: remuxer.dfy ===
/** `convert_media`: the ffmpeg command line, and the effect of running it. */
module Remuxer {
  import opened Base
  import opened FileSys

  /** The tag each input carries; the command line never looks at it. */
  datatype StreamKind = Audio | Video

  /** One `(input_path, input_type)` pair of the `inputs` list. */
  datatype Input = Input(path: Path, kind: StreamKind)

  /** The `-i <path>` pairs, one per input, in the order given. */
  function InputArgs(inputs: seq<Input>): (a: seq<string>)
    ensures |a| == 2 * |inputs|
    ensures forall i | 0 <= i < |inputs| :: a[2 * i] == "-i" && a[2 * i + 1] == inputs[i].path
    decreases |inputs|
  {
    if |inputs| == 0 then []
    else InputArgs(inputs[..|inputs| - 1]) + ["-i", inputs[|inputs| - 1].path]
  }

  /**
   * The argument list handed to the subprocess: the fixed prefix that
   * overwrites silently and logs only errors, one `-i` per input in order,
   * then a stream copy into `output`.
   */
  function FfmpegArgv(inputs: seq<Input>, output: Path): (argv: seq<string>)
    ensures |argv| == 7 + 2 * |inputs|
    ensures argv[..4] == ["ffmpeg", "-y", "-loglevel", "error"]
    ensures forall i | 0 <= i < |inputs| :: argv[4 + 2 * i] == "-i" && argv[5 + 2 * i] == inputs[i].path
    ensures argv[|argv| - 3..] == ["-c", "copy", output]
  {
    var argv := ["ffmpeg", "-y", "-loglevel", "error"] + InputArgs(inputs) + ["-c", "copy", output];
    assert forall i | 0 <= i < |inputs| :: argv[4 + 2 * i] == InputArgs(inputs)[2 * i];
    assert forall i | 0 <= i < |inputs| :: argv[5 + 2 * i] == InputArgs(inputs)[2 * i + 1];
    argv
  }

  /** The command depends on the input paths and the output only: kinds are ignored. */
  lemma {:induction false} ArgvIgnoresKinds(a: seq<Input>, b: seq<Input>, output: Path)
    requires |a| == |b|
    requires forall i | 0 <= i < |a| :: a[i].path == b[i].path
    ensures FfmpegArgv(a, output) == FfmpegArgv(b, output)
  {
    var x, y := FfmpegArgv(a, output), FfmpegArgv(b, output);
    forall k | 0 <= k < |x| ensures x[k] == y[k] {
      if k < 4 {
        assert x[k] == x[..4][k] && y[k] == y[..4][k];
      } else if k < 4 + 2 * |a| {
        var i := (k - 4) / 2;
        assert k == 4 + 2 * i || k == 5 + 2 * i;
      } else {
        assert x[k] == x[|x| - 3..][k - (|x| - 3)];
        assert y[k] == y[|y| - 3..][k - (|y| - 3)];
      }
    }
  }

  /** The command for a single input. */
  lemma ArgvOfOne(a: Input, output: Path)
    ensures FfmpegArgv([a], output) == ["ffmpeg", "-y", "-loglevel", "error", "-i", a.path, "-c", "copy", output]
  {
    var argv := FfmpegArgv([a], output);
    assert argv[..4] == ["ffmpeg", "-y", "-loglevel", "error"];
    assert argv[6..] == ["-c", "copy", output];
  }

  /** The command for two inputs keeps them in the order given: the first input's `-i` comes first. */
  lemma ArgvOfTwo(a: Input, b: Input, output: Path)
    ensures FfmpegArgv([a, b], output)
         == ["ffmpeg", "-y", "-loglevel", "error", "-i", a.path, "-i", b.path, "-c", "copy", output]
  {
    var argv := FfmpegArgv([a, b], output);
    assert argv[..4] == ["ffmpeg", "-y", "-loglevel", "error"];
    assert argv[4] == "-i" && argv[5] == [a, b][0].path;
    assert argv[6] == "-i" && argv[7] == [a, b][1].path;
    assert argv[8..] == ["-c", "copy", output];
  }

  /**
   * How a `subprocess.run` of ffmpeg ended: the executable could not be
   * started (the exception is caught), or it exited with a code, having
   * written the output file or not.
   */
  datatype ToolRun = NotInstalled | Exited(code: int, wrote: Option<Bytes>)

  /** The run left a file at the output path. */
  predicate Produced(run: ToolRun)
  {
    run.Exited? && run.wrote.Some?
  }

  /**
   * The filesystem after `convert_media(inputs, output)`. The return code is
   * only logged, so the effect is whatever the tool left behind: the output
   * file when it wrote one, nothing otherwise.
   */
  function ConvertMedia(inputs: seq<Input>, output: Path, run: ToolRun, fs: FileSystem): (fs': FileSystem)
    ensures fs.SameExcept(fs', output) && fs.GrowsTo(fs')
    ensures Produced(run) ==> fs'.Exists(output) && fs'.files[output] == run.wrote.value
    ensures !Produced(run) ==> fs' == fs
  {
    match run
    case NotInstalled => fs
    case Exited(_, wrote) =>
      match wrote
      case None => fs
      case Some(contents) => fs.Write(output, contents)
  }

  /** A non-zero exit is not acted upon: runs that differ only in their code have the same effect. */
  lemma ReturnCodeIsOnlyLogged(inputs: seq<Input>, output: Path, c1: int, c2: int, wrote: Option<Bytes>, fs: FileSystem)
    ensures ConvertMedia(inputs, output, Exited(c1, wrote), fs) == ConvertMedia(inputs, output, Exited(c2, wrote), fs)
  {
  }
}

=== FILE: route_properties.dfy ===
/**
 * Properties of the two media routes that relate calls, worlds and paths:
 * naming, the cache short-circuit, the exact effect sequence on a miss,
 * indifference to failures, shared headers, idempotence and the byte round
 * trip of the downloaded streams.
 *
 * Each route-level lemma first rewrites the route to `SendStep` of its miss
 * sequence (or of the untouched state on a hit), then appeals to a lemma
 * about that sequence alone.
 */
module RouteProperties {
  import opened Base
  import opened FileSys
  import opened Params
  import opened Downloader
  import opened Remuxer
  import opened Routes
  import Http

  /** A request carrying every parameter the audio route requires, each non-empty. */
  predicate AudioRequest(req: Request)
  {
    Present(req.args, "aurl") && Present(req.args, "filename") && Present(req.args, "cookie")
  }

  /** A request carrying every parameter the video route requires, each non-empty. */
  predicate VideoRequest(req: Request)
  {
    && Present(req.args, "aurl") && Present(req.args, "vurl")
    && Present(req.args, "filename") && Present(req.args, "cookie")
  }

  /** The audio route's parameter check passes exactly for the requests that carry all its parameters. */
  lemma AudioValidation(req: Request)
    ensures ValidateParams(AudioParams, req.args).None? <==> AudioRequest(req)
  {
    assert AudioParams == ["aurl", "filename", "cookie"];
    if ValidateParams(AudioParams, req.args).None? {
      assert Present(req.args, AudioParams[0]) && Present(req.args, AudioParams[1]);
      assert Present(req.args, AudioParams[2]);
    }
  }

  /** The video route's parameter check passes exactly for the requests that carry all its parameters. */
  lemma VideoValidation(req: Request)
    ensures ValidateParams(VideoParams, req.args).None? <==> VideoRequest(req)
  {
    assert VideoParams == ["aurl", "vurl", "filename", "cookie"];
    if ValidateParams(VideoParams, req.args).None? {
      assert Present(req.args, VideoParams[0]) && Present(req.args, VideoParams[1]);
      assert Present(req.args, VideoParams[2]) && Present(req.args, VideoParams[3]);
    }
  }

  /** The two routes never share an output: the same logical name gives different audio and video files. */
  lemma OutputNaming(cache: Path, filename: string)
    ensures AudioOutput(cache, filename) != VideoOutput(cache, filename)
  {
    assert (filename + ".flac")[|filename|..] != (filename + ".mkv")[|filename|..];
  }

  // ---------------------------------------------------------------------
  // The miss sequences on their own
  // ---------------------------------------------------------------------

  /** The audio miss sequence followed by the send: exactly three events, in this order. */
  lemma AudioMissTrace(aurl: string, local: Path, out: Path, headers: Headers, fs: FileSystem, world: World)
    ensures SendStep(AudioMiss(aurl, local, out, headers, fs, world), out).trace
         == [Download(aurl, local, headers),
             Convert(["ffmpeg", "-y", "-loglevel", "error", "-i", local, "-c", "copy", out]),
             Send(out)]
  {
    ArgvOfOne(Input(local, Audio), out);
  }

  /** The video miss sequence followed by the send: exactly four events, in this order. */
  lemma VideoMissTrace(aurl: string, vurl: string, a: Path, v: Path, out: Path,
                       headers: Headers, fs: FileSystem, world: World)
    ensures SendStep(VideoMiss(aurl, vurl, a, v, out, headers, fs, world), out).trace
         == [Download(aurl, a, headers), Download(vurl, v, headers),
             Convert(["ffmpeg", "-y", "-loglevel", "error", "-i", a, "-i", v, "-c", "copy", out]),
             Send(out)]
  {
    ArgvOfTwo(Input(a, Audio), Input(v, Video), out);
  }

  /** When ffmpeg writes the output, the audio miss sequence leaves it on disk. */
  lemma AudioMissProduces(aurl: string, local: Path, out: Path, headers: Headers, fs: FileSystem, world: World)
    requires Produced(world.tool)
    ensures AudioMiss(aurl, local, out, headers, fs, world).fs.Exists(out)
  {
  }

  /** When ffmpeg writes the output, the video miss sequence leaves it on disk. */
  lemma VideoMissProduces(aurl: string, vurl: string, a: Path, v: Path, out: Path,
                          headers: Headers, fs: FileSystem, world: World)
    requires Produced(world.tool)
    ensures VideoMiss(aurl, vurl, a, v, out, headers, fs, world).fs.Exists(out)
  {
  }

  /** A successful audio reply survives the rest of the video miss sequence byte for byte. */
  lemma {:induction false} VideoMissKeepsAudio(aurl: string, vurl: string, a: Path, v: Path, out: Path,
                            headers: Headers, fs: FileSystem, world: World)
    requires world.audio.Served? && !Http.IsErrorStatus(world.audio.status)
    requires a != v && a != out
    ensures var s := VideoMiss(aurl, vurl, a, v, out, headers, fs, world);
      s.fs.Exists(a) && s.fs.files[a] == Concat(world.audio.chunks)
  {
    var s1 := DownloadStep(State(fs, []), aurl, a, headers, world.audio);
    var s2 := DownloadStep(s1, vurl, v, headers, world.video);
    assert s1.fs.files[a] == Concat(world.audio.chunks);
    assert s2.fs.files[a] == Concat(world.audio.chunks);
  }

  /** A successful video reply survives the convert step byte for byte. */
  lemma {:induction false} VideoMissKeepsVideo(aurl: string, vurl: string, a: Path, v: Path, out: Path,
                            headers: Headers, fs: FileSystem, world: World)
    requires world.video.Served? && !Http.IsErrorStatus(world.video.status)
    requires v != out
    ensures var s := VideoMiss(aurl, vurl, a, v, out, headers, fs, world);
      s.fs.Exists(v) && s.fs.files[v] == Concat(world.video.chunks)
  {
    var s1 := DownloadStep(State(fs, []), aurl, a, headers, world.audio);
    var s2 := DownloadStep(s1, vurl, v, headers, world.video);
    assert s2.fs.files[v] == Concat(world.video.chunks);
  }

  /** Every download recorded in `trace` was sent with the header map `h`. */
  predicate DownloadsUse(trace: seq<Event>, h: Headers)
  {
    forall k | 0 <= k < |trace| && trace[k].Download? :: trace[k].headers == h
  }

  /** A trace holding only a send has no download at all. */
  lemma SendAloneUsesAnyHeaders(out: Path, headers: Headers)
    ensures DownloadsUse([Send(out)], headers)
  {
  }

  /** The video miss sequence sends both downloads with the one header map it is given. */
  lemma VideoMissUsesHeaders(aurl: string, vurl: string, a: Path, v: Path, out: Path,
                             headers: Headers, fs: FileSystem, world: World)
    ensures DownloadsUse(SendStep(VideoMiss(aurl, vurl, a, v, out, headers, fs, world), out).trace, headers)
  {
    var t := SendStep(VideoMiss(aurl, vurl, a, v, out, headers, fs, world), out).trace;
    assert t[0] == Download(aurl, a, headers) && t[1] == Download(vurl, v, headers);
    assert !t[2].Download? && !t[3].Download?;
  }

  // ---------------------------------------------------------------------
  // The routes
  // ---------------------------------------------------------------------

  /** Cache hit on `/api/audio`: the cached file is sent, nothing is downloaded or converted. */
  lemma AudioCacheHit(cache: Path, urlPath: string -> string, req: Request, fs: FileSystem, world: World)
    requires AudioRequest(req)
    requires fs.Exists(AudioOutput(cache, req.args["filename"]))
    ensures var out := AudioOutput(cache, req.args["filename"]);
      AudioRoute(cache, urlPath, req, fs, world) == Outcome(Attachment(out, fs.files[out]), fs, [Send(out)])
  {
    AudioValidation(req);
  }

  /** Cache hit on `/api/video`. */
  lemma VideoCacheHit(cache: Path, urlPath: string -> string, req: Request, fs: FileSystem, world: World)
    requires VideoRequest(req)
    requires fs.Exists(VideoOutput(cache, req.args["filename"]))
    ensures var out := VideoOutput(cache, req.args["filename"]);
      VideoRoute(cache, urlPath, req, fs, world) == Outcome(Attachment(out, fs.files[out]), fs, [Send(out)])
  {
    VideoValidation(req);
  }

  /** On an audio miss the route is the miss sequence followed by the send. */
  lemma AudioMissOutcome(cache: Path, urlPath: string -> string, req: Request, fs: FileSystem, world: World)
    requires AudioRequest(req)
    requires !fs.Exists(AudioOutput(cache, req.args["filename"]))
    ensures var aurl, out := req.args["aurl"], AudioOutput(cache, req.args["filename"]);
      AudioRoute(cache, urlPath, req, fs, world)
        == SendStep(AudioMiss(aurl, LocalPath(cache, urlPath, aurl), out, GetHeaders(req), fs, world), out)
  {
    AudioValidation(req);
  }

  /** On a video miss the route is the miss sequence followed by the send. */
  lemma VideoMissOutcome(cache: Path, urlPath: string -> string, req: Request, fs: FileSystem, world: World)
    requires VideoRequest(req)
    requires !fs.Exists(VideoOutput(cache, req.args["filename"]))
    ensures var aurl, vurl, out := req.args["aurl"], req.args["vurl"], VideoOutput(cache, req.args["filename"]);
      VideoRoute(cache, urlPath, req, fs, world)
        == SendStep(VideoMiss(aurl, vurl, LocalPath(cache, urlPath, aurl), LocalPath(cache, urlPath, vurl),
                              out, GetHeaders(req), fs, world), out)
  {
    VideoValidation(req);
  }

  /**
   * Cache miss on `/api/audio`: one download of the audio URL to its local
   * path, one ffmpeg run with that single input, then the output is sent.
   */
  lemma AudioCacheMiss(cache: Path, urlPath: string -> string, req: Request, fs: FileSystem, world: World)
    requires AudioRequest(req)
    requires !fs.Exists(AudioOutput(cache, req.args["filename"]))
    ensures var aurl, out := req.args["aurl"], AudioOutput(cache, req.args["filename"]);
      var local := LocalPath(cache, urlPath, aurl);
      AudioRoute(cache, urlPath, req, fs, world).trace
        == [Download(aurl, local, GetHeaders(req)),
            Convert(["ffmpeg", "-y", "-loglevel", "error", "-i", local, "-c", "copy", out]),
            Send(out)]
  {
    AudioValidation(req);
    var aurl, out := req.args["aurl"], AudioOutput(cache, req.args["filename"]);
    AudioMissOutcome(cache, urlPath, req, fs, world);
    AudioMissTrace(aurl, LocalPath(cache, urlPath, aurl), out, GetHeaders(req), fs, world);
  }

  /**
   * Cache miss on `/api/video`: the audio download strictly before the video
   * download, both with the same headers, then one ffmpeg run whose inputs
   * are the audio file and then the video file, then the output is sent.
   */
  lemma VideoCacheMiss(cache: Path, urlPath: string -> string, req: Request, fs: FileSystem, world: World)
    requires VideoRequest(req)
    requires !fs.Exists(VideoOutput(cache, req.args["filename"]))
    ensures var aurl, vurl, out := req.args["aurl"], req.args["vurl"], VideoOutput(cache, req.args["filename"]);
      var a, v := LocalPath(cache, urlPath, aurl), LocalPath(cache, urlPath, vurl);
      VideoRoute(cache, urlPath, req, fs, world).trace
        == [Download(aurl, a, GetHeaders(req)),
            Download(vurl, v, GetHeaders(req)),
            Convert(["ffmpeg", "-y", "-loglevel", "error", "-i", a, "-i", v, "-c", "copy", out]),
            Send(out)]
  {
    VideoValidation(req);
    var aurl, vurl, out := req.args["aurl"], req.args["vurl"], VideoOutput(cache, req.args["filename"]);
    VideoMissOutcome(cache, urlPath, req, fs, world);
    VideoMissTrace(aurl, vurl, LocalPath(cache, urlPath, aurl), LocalPath(cache, urlPath, vurl), out,
                   GetHeaders(req), fs, world);
  }

  /**
   * Failures never abort: the effects of either route do not depend on how
   * the downloads or the ffmpeg run turned out.
   */
  lemma AudioTraceIgnoresWorld(cache: Path, urlPath: string -> string, req: Request, fs: FileSystem, w1: World, w2: World)
    ensures AudioRoute(cache, urlPath, req, fs, w1).trace == AudioRoute(cache, urlPath, req, fs, w2).trace
  {
    if AudioRequest(req) {
      if fs.Exists(AudioOutput(cache, req.args["filename"])) {
        AudioCacheHit(cache, urlPath, req, fs, w1);
        AudioCacheHit(cache, urlPath, req, fs, w2);
      } else {
        AudioCacheMiss(cache, urlPath, req, fs, w1);
        AudioCacheMiss(cache, urlPath, req, fs, w2);
      }
    }
  }

  lemma VideoTraceIgnoresWorld(cache: Path, urlPath: string -> string, req: Request, fs: FileSystem, w1: World, w2: World)
    ensures VideoRoute(cache, urlPath, req, fs, w1).trace == VideoRoute(cache, urlPath, req, fs, w2).trace
  {
    if VideoRequest(req) {
      if fs.Exists(VideoOutput(cache, req.args["filename"])) {
        VideoCacheHit(cache, urlPath, req, fs, w1);
        VideoCacheHit(cache, urlPath, req, fs, w2);
      } else {
        VideoCacheMiss(cache, urlPath, req, fs, w1);
        VideoCacheMiss(cache, urlPath, req, fs, w2);
      }
    }
  }

  /**
   * Both downloads of one video request carry the same header map: the
   * validated cookie, the fixed referer and the caller's user-agent.
   */
  lemma VideoDownloadsShareHeaders(cache: Path, urlPath: string -> string, req: Request, fs: FileSystem, world: World)
    requires VideoRequest(req)
    ensures DownloadsUse(VideoRoute(cache, urlPath, req, fs, world).trace, GetHeaders(req))
    ensures GetHeaders(req)["cookie"] == Some(req.args["cookie"])
  {
    VideoValidation(req);
    var aurl, vurl, out := req.args["aurl"], req.args["vurl"], VideoOutput(cache, req.args["filename"]);
    if fs.Exists(out) {
      VideoCacheHit(cache, urlPath, req, fs, world);
      SendAloneUsesAnyHeaders(out, GetHeaders(req));
    } else {
      VideoMissOutcome(cache, urlPath, req, fs, world);
      VideoMissUsesHeaders(aurl, vurl, LocalPath(cache, urlPath, aurl), LocalPath(cache, urlPath, vurl), out,
                           GetHeaders(req), fs, world);
    }
  }

  /** A request never removes a file from the cache, hit, miss or rejection. */
  lemma RoutesOnlyGrowTheCache(cache: Path, urlPath: string -> string, req: Request, fs: FileSystem, world: World)
    ensures fs.GrowsTo(AudioRoute(cache, urlPath, req, fs, world).fs)
    ensures fs.GrowsTo(VideoRoute(cache, urlPath, req, fs, world).fs)
  {
  }

  /** Once ffmpeg has written the output, or it was cached already, the output is on disk and sent. */
  lemma AudioLeavesOutput(cache: Path, urlPath: string -> string, req: Request, fs: FileSystem, world: World)
    requires AudioRequest(req)
    requires Produced(world.tool) || fs.Exists(AudioOutput(cache, req.args["filename"]))
    ensures var o := AudioRoute(cache, urlPath, req, fs, world);
      o.fs.Exists(AudioOutput(cache, req.args["filename"])) && o.response.Attachment?
  {
    AudioValidation(req);
    var aurl, out := req.args["aurl"], AudioOutput(cache, req.args["filename"]);
    if !fs.Exists(out) {
      AudioMissOutcome(cache, urlPath, req, fs, world);
      AudioMissProduces(aurl, LocalPath(cache, urlPath, aurl), out, GetHeaders(req), fs, world);
    }
  }

  lemma VideoLeavesOutput(cache: Path, urlPath: string -> string, req: Request, fs: FileSystem, world: World)
    requires VideoRequest(req)
    requires Produced(world.tool) || fs.Exists(VideoOutput(cache, req.args["filename"]))
    ensures var o := VideoRoute(cache, urlPath, req, fs, world);
      o.fs.Exists(VideoOutput(cache, req.args["filename"])) && o.response.Attachment?
  {
    VideoValidation(req);
    var aurl, vurl, out := req.args["aurl"], req.args["vurl"], VideoOutput(cache, req.args["filename"]);
    if !fs.Exists(out) {
      VideoMissOutcome(cache, urlPath, req, fs, world);
      VideoMissProduces(aurl, vurl, LocalPath(cache, urlPath, aurl), LocalPath(cache, urlPath, vurl), out,
                        GetHeaders(req), fs, world);
    }
  }

  /**
   * Idempotence: a repeated `/api/audio` request names the same output, and
   * when the first left that output on disk the second downloads and
   * converts nothing and changes nothing.
   */
  lemma AudioRepeat(cache: Path, urlPath: string -> string, req: Request, fs: FileSystem, w1: World, w2: World)
    requires AudioRequest(req)
    ensures var out := AudioOutput(cache, req.args["filename"]);
      var o1 := AudioRoute(cache, urlPath, req, fs, w1);
      var o2 := AudioRoute(cache, urlPath, req, o1.fs, w2);
      && o1.trace[|o1.trace| - 1] == o2.trace[|o2.trace| - 1] == Send(out)
      && (o1.fs.Exists(out) ==> o2 == Outcome(Attachment(out, o1.fs.files[out]), o1.fs, [Send(out)]))
  {
    AudioValidation(req);
    var o1 := AudioRoute(cache, urlPath, req, fs, w1);
    if o1.fs.Exists(AudioOutput(cache, req.args["filename"])) {
      AudioCacheHit(cache, urlPath, req, o1.fs, w2);
    }
  }

  lemma VideoRepeat(cache: Path, urlPath: string -> string, req: Request, fs: FileSystem, w1: World, w2: World)
    requires VideoRequest(req)
    ensures var out := VideoOutput(cache, req.args["filename"]);
      var o1 := VideoRoute(cache, urlPath, req, fs, w1);
      var o2 := VideoRoute(cache, urlPath, req, o1.fs, w2);
      && o1.trace[|o1.trace| - 1] == o2.trace[|o2.trace| - 1] == Send(out)
      && (o1.fs.Exists(out) ==> o2 == Outcome(Attachment(out, o1.fs.files[out]), o1.fs, [Send(out)]))
  {
    VideoValidation(req);
    var o1 := VideoRoute(cache, urlPath, req, fs, w1);
    if o1.fs.Exists(VideoOutput(cache, req.args["filename"])) {
      VideoCacheHit(cache, urlPath, req, o1.fs, w2);
    }
  }

  /**
   * Fail fast: a video request whose audio URL is given but whose video URL
   * is missing or empty is answered with the `vurl` error and has no effect.
   */
  lemma VideoMissingVurl(cache: Path, urlPath: string -> string, req: Request, fs: FileSystem, world: World)
    requires Present(req.args, "aurl") && !Present(req.args, "vurl")
    ensures VideoRoute(cache, urlPath, req, fs, world) == Outcome(ErrorJson("Missing parameter: vurl"), fs, [])
  {
    assert VideoParams[0] == "aurl" && VideoParams[1] == "vurl";
    assert FirstMissingFrom(VideoParams, req.args, 1) == 1;
    assert FirstMissingFrom(VideoParams, req.args, 0) == 1;
    assert MissingMessage("vurl") == "Missing parameter: vurl";
  }

  /**
   * On a video cache miss whose audio reply succeeds, the audio stream is
   * in its local file afterwards byte for byte, whatever happened to the
   * video download and to ffmpeg, provided neither writes to the same path.
   */
  lemma VideoKeepsAudioStream(cache: Path, urlPath: string -> string, req: Request, fs: FileSystem,
                              world: World)
    requires VideoRequest(req)
    requires !fs.Exists(VideoOutput(cache, req.args["filename"]))
    requires world.audio.Served? && !Http.IsErrorStatus(world.audio.status)
    requires LocalPath(cache, urlPath, req.args["aurl"]) != LocalPath(cache, urlPath, req.args["vurl"])
    requires LocalPath(cache, urlPath, req.args["aurl"]) != VideoOutput(cache, req.args["filename"])
    ensures var o := VideoRoute(cache, urlPath, req, fs, world);
      var a := LocalPath(cache, urlPath, req.args["aurl"]);
      o.fs.Exists(a) && o.fs.files[a] == Concat(world.audio.chunks)
  {
    VideoValidation(req);
    var aurl, vurl, out := req.args["aurl"], req.args["vurl"], VideoOutput(cache, req.args["filename"]);
    var a, v := LocalPath(cache, urlPath, aurl), LocalPath(cache, urlPath, vurl);
    var s := VideoMiss(aurl, vurl, a, v, out, GetHeaders(req), fs, world);
    assert VideoRoute(cache, urlPath, req, fs, world).fs == s.fs by {
      VideoMissOutcome(cache, urlPath, req, fs, world);
    }
    assert s.fs.Exists(a) && s.fs.files[a] == Concat(world.audio.chunks) by {
      VideoMissKeepsAudio(aurl, vurl, a, v, out, GetHeaders(req), fs, world);
    }
  }

  /** The same for the video stream, whatever the audio download and ffmpeg did. */
  lemma VideoKeepsVideoStream(cache: Path, urlPath: string -> string, req: Request, fs: FileSystem,
                              world: World)
    requires VideoRequest(req)
    requires !fs.Exists(VideoOutput(cache, req.args["filename"]))
    requires world.video.Served? && !Http.IsErrorStatus(world.video.status)
    requires LocalPath(cache, urlPath, req.args["vurl"]) != VideoOutput(cache, req.args["filename"])
    ensures var o := VideoRoute(cache, urlPath, req, fs, world);
      var v := LocalPath(cache, urlPath, req.args["vurl"]);
      o.fs.Exists(v) && o.fs.files[v] == Concat(world.video.chunks)
  {
    VideoValidation(req);
    var aurl, vurl, out := req.args["aurl"], req.args["vurl"], VideoOutput(cache, req.args["filename"]);
    var a, v := LocalPath(cache, urlPath, aurl), LocalPath(cache, urlPath, vurl);
    var s := VideoMiss(aurl, vurl, a, v, out, GetHeaders(req), fs, world);
    assert VideoRoute(cache, urlPath, req, fs, world).fs == s.fs by {
      VideoMissOutcome(cache, urlPath, req, fs, world);
    }
    assert s.fs.Exists(v) && s.fs.files[v] == Concat(world.video.chunks) by {
      VideoMissKeepsVideo(aurl, vurl, a, v, out, GetHeaders(req), fs, world);
    }
  }

  /**
   * When the audio and video URLs end in the same segment, both downloads
   * target one local file: the video stream overwrites the audio stream,
   * whatever the audio reply was, and ffmpeg is handed that one file twice.
   */
  lemma VideoSharedSegment(cache: Path, urlPath: string -> string, req: Request, fs: FileSystem,
                           world: World)
    requires VideoRequest(req)
    requires !fs.Exists(VideoOutput(cache, req.args["filename"]))
    requires world.video.Served? && !Http.IsErrorStatus(world.video.status)
    requires LocalPath(cache, urlPath, req.args["aurl"]) == LocalPath(cache, urlPath, req.args["vurl"])
    requires LocalPath(cache, urlPath, req.args["vurl"]) != VideoOutput(cache, req.args["filename"])
    ensures var o := VideoRoute(cache, urlPath, req, fs, world);
      var a, out := LocalPath(cache, urlPath, req.args["aurl"]), VideoOutput(cache, req.args["filename"]);
      && o.fs.Exists(a) && o.fs.files[a] == Concat(world.video.chunks)
      && o.trace == [Download(req.args["aurl"], a, GetHeaders(req)), Download(req.args["vurl"], a, GetHeaders(req)),
                     Convert(["ffmpeg", "-y", "-loglevel", "error", "-i", a, "-i", a, "-c", "copy", out]),
                     Send(out)]
  {
    VideoKeepsVideoStream(cache, urlPath, req, fs, world);
    VideoCacheMiss(cache, urlPath, req, fs, world);
  }
}

=== FILE: routes.dfy ===
/**
 * The `/api/audio` and `/api/video` handlers: parameter validation, cache
 * path derivation, the cache short-circuit, and the download, convert and
 * send sequence, over an abstract filesystem and a trace of effects.
 */
module Routes {
  import opened Base
  import opened Paths
  import opened FileSys
  import opened Params
  import opened Downloader
  import opened Remuxer

  /** An externally visible effect, in the order the handler performs it. */
  datatype Event =
    | Download(url: string, path: Path, headers: Headers)  // a `download_file` call
    | Convert(argv: seq<string>)                          // a `subprocess.run` of ffmpeg
    | Send(path: Path)                                    // a `send_file` call

  /**
   * What the client receives: the decorator's JSON error, the file as an
   * attachment, or a server error when `send_file` finds no file to send.
   */
  datatype Response = ErrorJson(error: string) | Attachment(path: Path, contents: Bytes) | ServerError

  /** One request's result: its response, the filesystem after it, and its effects. */
  datatype Outcome = Outcome(response: Response, fs: FileSystem, trace: seq<Event>)

  /** How the outside world answers this request: the two downloads and the ffmpeg run. */
  datatype World = World(audio: Fetched, video: Fetched, tool: ToolRun)

  const AudioParams: seq<string> := ["aurl", "filename", "cookie"]
  const VideoParams: seq<string> := ["aurl", "vurl", "filename", "cookie"]

  /**
   * Where a downloaded stream is kept: the cache directory joined with the
   * last segment of the URL's path (`urlPath` stands for `urlparse(url).path`).
   */
  function LocalPath(cache: Path, urlPath: string -> string, url: string): (p: Path)
    ensures Basename(p) == Basename(urlPath(url))
    ensures p == Join(cache, Basename(p))
  {
    var name := Basename(urlPath(url));
    BasenameOfJoin(cache, name);
    Join(cache, name)
  }

  /** `os.path.join(cache, f"{filename}.flac")`: for a one-segment name, a file directly in the cache directory. */
  function AudioOutput(cache: Path, filename: string): (o: Path)
    ensures '/' !in filename ==> Basename(o) == filename + ".flac"
    ensures '/' !in filename ==> o == Join(cache, Basename(o))
  {
    var name := filename + ".flac";
    var o := Join(cache, name);
    assert '/' !in filename ==> '/' !in name;
    if '/' !in name then BasenameOfJoin(cache, name); o else o
  }

  /** `os.path.join(cache, f"{filename}.mkv")`: for a one-segment name, a file directly in the cache directory. */
  function VideoOutput(cache: Path, filename: string): (o: Path)
    ensures '/' !in filename ==> Basename(o) == filename + ".mkv"
    ensures '/' !in filename ==> o == Join(cache, Basename(o))
  {
    var name := filename + ".mkv";
    var o := Join(cache, name);
    assert '/' !in filename ==> '/' !in name;
    if '/' !in name then BasenameOfJoin(cache, name); o else o
  }

  /** The state a handler threads through its steps: the cache directory and the effects so far. */
  datatype State = State(fs: FileSystem, trace: seq<Event>)

  /** `download_file(url, file=path, headers=headers)` as a step, given the network's reply. */
  function DownloadStep(s: State, url: string, path: Path, headers: Headers, reply: Fetched): State
  {
    State(DownloadFile(path, reply, s.fs), s.trace + [Download(url, path, headers)])
  }

  /** `convert_media(inputs, output)` as a step, given how the ffmpeg run ends. */
  function ConvertStep(s: State, inputs: seq<Input>, output: Path, run: ToolRun): State
  {
    State(ConvertMedia(inputs, output, run, s.fs), s.trace + [Convert(FfmpegArgv(inputs, output))])
  }

  /**
   * `send_file(path, as_attachment=True)` as the final step: the file as an
   * attachment when it exists, a server error when it does not.
   */
  function SendStep(s: State, path: Path): Outcome
  {
    Outcome(if s.fs.Exists(path) then Attachment(path, s.fs.files[path]) else ServerError,
            s.fs, s.trace + [Send(path)])
  }

  /**
   * Unfolding of `SendStep` for the handlers' proofs: it appends `Send(path)`
   * as the last event and leaves the files alone. It adds no requirement of
   * its own; it keeps the handlers' proofs within the solver's budget.
   */
  lemma SendStepEffect(s: State, path: Path)
    ensures SendStep(s, path).trace == s.trace + [Send(path)]
    ensures |SendStep(s, path).trace| > 0 && SendStep(s, path).trace[|SendStep(s, path).trace| - 1] == Send(path)
    ensures SendStep(s, path).fs == s.fs
  {
  }

  /** What `audio()` does on a cache miss, before sending: download, then convert. */
  function AudioMiss(aurl: string, local: Path, output: Path, headers: Headers, fs: FileSystem, world: World): (s: State)
    ensures s.trace == [Download(aurl, local, headers), Convert(FfmpegArgv([Input(local, Audio)], output))]
    ensures fs.GrowsTo(s.fs)
  {
    var s1 := DownloadStep(State(fs, []), aurl, local, headers, world.audio);
    ConvertStep(s1, [Input(local, Audio)], output, world.tool)
  }

  /** What `video()` does on a cache miss, before sending: audio download, video download, convert. */
  function VideoMiss(aurl: string, vurl: string, audioLocal: Path, videoLocal: Path, output: Path,
                     headers: Headers, fs: FileSystem, world: World): (s: State)
    ensures s.trace == [Download(aurl, audioLocal, headers), Download(vurl, videoLocal, headers),
                        Convert(FfmpegArgv([Input(audioLocal, Audio), Input(videoLocal, Video)], output))]
    ensures fs.GrowsTo(s.fs)
  {
    var s1 := DownloadStep(State(fs, []), aurl, audioLocal, headers, world.audio);
    var s2 := DownloadStep(s1, vurl, videoLocal, headers, world.video);
    ConvertStep(s2, [Input(audioLocal, Audio), Input(videoLocal, Video)], output, world.tool)
  }

  /** The body of `audio()` once its parameters have been validated. */
  function AudioHandler(cache: Path, urlPath: string -> string, req: Request,
                        aurl: string, filename: string, fs: FileSystem, world: World): (o: Outcome)
    ensures |o.trace| > 0 && o.trace[|o.trace| - 1] == Send(AudioOutput(cache, filename))
    ensures fs.GrowsTo(o.fs)
  {
    var local := LocalPath(cache, urlPath, aurl);
    var output := AudioOutput(cache, filename);
    var s := if fs.Exists(output) then State(fs, []) else AudioMiss(aurl, local, output, GetHeaders(req), fs, world);
    SendStepEffect(s, output);
    SendStep(s, output)
  }

  /** The body of `video()` once its parameters have been validated. */
  function VideoHandler(cache: Path, urlPath: string -> string, req: Request,
                        aurl: string, vurl: string, filename: string, fs: FileSystem, world: World): (o: Outcome)
    ensures |o.trace| > 0 && o.trace[|o.trace| - 1] == Send(VideoOutput(cache, filename))
    ensures fs.GrowsTo(o.fs)
  {
    var audioLocal := LocalPath(cache, urlPath, aurl);
    var videoLocal := LocalPath(cache, urlPath, vurl);
    var output := VideoOutput(cache, filename);
    var s := if fs.Exists(output) then State(fs, [])
             else VideoMiss(aurl, vurl, audioLocal, videoLocal, output, GetHeaders(req), fs, world);
    SendStepEffect(s, output);
    SendStep(s, output)
  }

  /** `GET /api/audio`: `validate_params("aurl", "filename", "cookie")` around `audio()`. */
  function AudioRoute(cache: Path, urlPath: string -> string, req: Request, fs: FileSystem, world: World): (o: Outcome)
    ensures ValidateParams(AudioParams, req.args).Some? ==>
      o == Outcome(ErrorJson(ValidateParams(AudioParams, req.args).value), fs, [])
    ensures ValidateParams(AudioParams, req.args).None? ==>
      && Present(req.args, "aurl") && Present(req.args, "filename")
      && o == AudioHandler(cache, urlPath, req, req.args["aurl"], req.args["filename"], fs, world)
  {
    match ValidateParams(AudioParams, req.args)
    case Some(error) => Outcome(ErrorJson(error), fs, [])
    case None =>
      assert Present(req.args, AudioParams[0]) && Present(req.args, AudioParams[1]);
      AudioHandler(cache, urlPath, req, req.args["aurl"], req.args["filename"], fs, world)
  }

  /** `GET /api/video`: `validate_params("aurl", "vurl", "filename", "cookie")` around `video()`. */
  function VideoRoute(cache: Path, urlPath: string -> string, req: Request, fs: FileSystem, world: World): (o: Outcome)
    ensures ValidateParams(VideoParams, req.args).Some? ==>
      o == Outcome(ErrorJson(ValidateParams(VideoParams, req.args).value), fs, [])
    ensures ValidateParams(VideoParams, req.args).None? ==>
      && Present(req.args, "aurl") && Present(req.args, "vurl") && Present(req.args, "filename")
      && o == VideoHandler(cache, urlPath, req, req.args["aurl"], req.args["vurl"], req.args["filename"], fs, world)
  {
    match ValidateParams(VideoParams, req.args)
    case Some(error) => Outcome(ErrorJson(error), fs, [])
    case None =>
      assert Present(req.args, VideoParams[0]) && Present(req.args, VideoParams[1]);
      assert Present(req.args, VideoParams[2]);
      VideoHandler(cache, urlPath, req, req.args["aurl"], req.args["vurl"], req.args["filename"], fs, world)
  }
}
